=== FILE: README.md ===
# foodIngredientsApp core, modelled in Dafny

The app lets a user pick a photo, shrinks it, sends it to a food
segmentation service to learn which ingredients it shows, and asks an AI
chat SDK (Puter) for dishes made from those ingredients. A second component
prepares a 640 x 640 picture as input for an in-browser YOLOv8 detector.
This project models the four pieces of pure logic in that code and proves
what they guarantee:

- `resize.dfy` (module `Resize`): the target-size rule of
  `resizeAndCompressImage`, over the reals.
- `ingredients.dfy` (module `Ingredients`): turning the segmentation reply
  into the deduplicated ingredient list (`indexOf`-based filter).
- `recipes.dfy` (module `Recipes`): `getRecipeFromIngredients`. It covers
  the SDK guard, the prompt with the `", "`-joined ingredients, and the
  raw `split("\n")` of the reply.
- `upload.dfy` (module `Upload`): the `handleImageUpload` flow. Its outcome
  is the final view (`ingredients`, `recipes`, `loading`, `loadingMessage`,
  `error`) plus how the async handler ends: it returns, it rejects, or it
  never settles.
- `channels.dfy` (module `Channels`): dropping alpha from RGBA data and the
  HWC to CHW transpose, for any side `n` and any element type. YoloTest.jsx's
  `n = 640` is `YoloInput`.
- `results.dfy` (module `Results`): `Option` and `Result`. They stand for
  JavaScript's `undefined` and for thrown exceptions.

The segmentation service and the chat SDK are parameters of the flow.
`segment: Dims -> HttpReply` answers an upload of an image of the given
size. `chat: string -> ChatOutcome` answers a prompt. Contracts can
therefore say which image size was sent and which prompt was asked.
Whether the SDK global ever appears is the boolean `sdkEventuallyLoads`.

Four behaviours of the code are easy to misread, and the model follows the
code in each:

- The dominant side is chosen by a strict `width > height`, not
  `width >= height`, so a square picture is bounded by `maxHeight`
  (`Resize.SquareIgnoresMaxWidth`).
- Not every failure ends with the generic error. The resize call in
  src/App.jsx:26 sits before the `try` at line 30. An undecodable picture
  therefore makes the handler reject with `loading` still true and no
  error set (`Upload.UndecodablePictureLeavesLoading`).
- The chat capability is never reported as unavailable to the user. The
  polling loop waits without a timeout, so an SDK that never loads leaves
  the handler pending (`Upload.SdkNeverLoadsLeavesHandlerPending`). Nor is
  any request bounded: a `fetch`, `json()` read or chat call that never
  answers leaves it pending as well (`Upload.UnansweredRequestLeavesDetecting`,
  `Upload.UnansweredChatLeavesFetching`).
- A very thin picture never gets past the resize. Its minor side is scaled
  below one pixel, the canvas truncates that side to 0, `toBlob` passes
  `null` to a callback that reads `blob.size`, and the resize promise never
  settles. The handler then waits forever with the detecting message shown
  (`Upload.DrawableIff`, `Upload.ThinPictureNeverSettles`).

## Model

| member | source | states |
|---|---|---|
| Resize.FitWithin | src/utils.js:8-22 | Aspect ratio is preserved exactly (`outW * h == outH * w`). Neither side grows. The dominant side ends within its own maximum. |
| Resize.WideImageClampedToMaxWidth | src/utils.js:12-16 | A landscape image wider than `maxWidth` gets width `maxWidth` and height `height * maxWidth / width`. |
| Resize.TallImageClampedToMaxHeight | src/utils.js:17-21 | A portrait or square image taller than `maxHeight` gets height `maxHeight` and width `width * maxHeight / height`. |
| Resize.UnchangedIffDominantSideFits | src/utils.js:12-22 | The size passes through unchanged if and only if the dominant side already fits its maximum, so there is no upscaling. |
| Resize.SquareIgnoresMaxWidth | src/utils.js:12-21 | A square image is bounded by `maxHeight`, and `maxWidth` has no effect on it. |
| Resize.EqualMaximaBoundBothSides | src/utils.js:12-22 | With equal maxima `M`, as at the call site, both output sides are at most `M`. |
| Resize.UnequalMaximaMayExceed | src/utils.js:12-22 | With unequal maxima the minor side is never checked: 100 x 200 under maxima 50 and 1000 stays 100 wide. |
| Resize.FitWithinIdempotent | src/utils.js:12-22 | Resizing an already resized size changes nothing. |
| Ingredients.IndexOf | src/App.jsx:51 | `indexOf` returns -1 exactly when the value is absent. Otherwise it returns a position holding the value with no earlier one. |
| Ingredients.KeepFirstOccurrences | src/App.jsx:51 | The filter output holds no duplicates and exactly the input's values. Its order is by first occurrence in the input, and it is no longer than the input. |
| Ingredients.FirstOccurrenceOrderUnique | src/App.jsx:51 | Only one list satisfies the first-occurrence characterisation, so it determines the filter's output. |
| Ingredients.DistinctListUnchanged | src/App.jsx:51 | A list without duplicates passes through the filter unchanged. |
| Ingredients.KeepFirstOccurrencesIdempotent | src/App.jsx:51 | Filtering twice equals filtering once. |
| Ingredients.FirstNames | src/App.jsx:49-50 | When every region has a candidate, the result is each region's first candidate name in region order. Otherwise it fails at the first region whose candidate list is empty. |
| Ingredients.ExtractIngredients | src/App.jsx:48-51 | A missing `segmentation_results` gives `[]`. The call fails exactly when some region has no candidate. Otherwise the result is the first-candidate names with duplicates removed, in first-occurrence order. |
| Ingredients.EggMilkExample | src/App.jsx:48-51 | Regions labelled egg, egg, milk give `["egg", "milk"]`. |
| Recipes.Join | src/puterClient.js:5-7 | `join` of no parts is "", and a join of at least one part starts with the first part. |
| Recipes.JoinPlacesPart | src/puterClient.js:5-7 | `join` places part `i` at the summed lengths of the earlier parts plus one separator each. The last part ends the string. |
| Recipes.JoinSeparatesParts | src/puterClient.js:5-7 | Consecutive parts of a `join` are separated by exactly one separator. |
| Recipes.BuildPrompt | src/puterClient.js:4-12 | The prompt starts with the template's opening text and ends with its closing instructions. Every ingredient lies between the two, in the given order, at the place the ", "-join gives it. |
| Recipes.PromptSeparatesIngredients | src/puterClient.js:4-12 | Consecutive ingredients are separated in the prompt by exactly ", ". |
| Recipes.EggMilkPrompt | src/puterClient.js:4-12 | Ingredients egg and milk appear in the prompt as "egg, milk". |
| Recipes.SplitLines | src/puterClient.js:20 | `split("\n")` never returns an empty list. |
| Recipes.SplitLinesMeaning | src/puterClient.js:20 | Joining the split lines with "\n" gives back the content. No line contains "\n". There is one more line than there are "\n" characters. |
| Recipes.SplitJoinedLines | src/puterClient.js:20 | Splitting a "\n"-join of break-free lines gives back those lines. |
| Recipes.LineSplitUnique | src/puterClient.js:20 | The split is the only break-free line list whose join is the content. |
| Recipes.GetRecipeFromIngredients | src/puterClient.js:1-21 | An absent SDK fails with `SdkNotLoaded`. Otherwise the call fails exactly when the chat call for the built prompt throws, and never settles exactly when that chat call never answers. On success the result is the line split of the reply content. |
| Recipes.AbsentSdkFailsFirst | src/puterClient.js:2 | With the SDK absent, the outcome depends on neither the ingredients nor the chat call. |
| Recipes.MissingContentGivesOneEmptyLine | src/puterClient.js:17-20 | A reply with no message, a message with no content, or empty content gives `[""]`, not `[]`. |
| Recipes.BlankAndRepeatedLinesKept | src/puterClient.js:20 | Blank lines and repeated lines are kept in order. |
| Recipes.FiveDishesExample | src/puterClient.js:14-20 | A five-line reply gives exactly those five names in order. |
| Upload.UploadSize | src/App.jsx:26 | The image sent for segmentation is at most 512 x 512, never larger than the original, and keeps its aspect ratio. |
| Upload.HandleImageUpload | src/App.jsx:15-79 | With no file, nothing changes. Otherwise: ingredients are distinct; recipes appear only after some ingredient was found; the only error is the generic one and it comes with no recipes; a returned handler has cleared loading; only an undecodable picture rejects, leaving the freshly reset view. A decoded picture leaves the handler pending with that reset view exactly when its canvas would be empty or the segmentation request never answers. Any other pending handler shows the detected names and the fetching message, and is waiting for an SDK that never loads or a chat call that never answers. |
| Upload.Detected | src/App.jsx:43-51 | The reply yields no ingredient list exactly when the request failed or never answered, the status is not ok, the body is not JSON, or some region has no candidate. A yielded list has no duplicates, and a reply without `segmentation_results` yields the empty list. |
| Upload.TryBlock | src/App.jsx:30-71 | The `try` block never sets the error or clears loading. It throws with the view untouched exactly when an arrived reply yields no ingredient list. It waits forever exactly when the request never answers, or ingredients were found and either the SDK never appears or its chat call never answers. With no ingredient it completes at once. Recipes are shown only beside a non-empty ingredient list, and then they are the recipe call's result and the message is the fetching one. |
| Upload.DrawableIff | src/utils.js:8-25 | The resized canvas is non-empty exactly when both sides are at least 1 and, when the major side exceeds 512, 512 times the minor side reaches the major side. |
| Upload.ThinPictureNeverSettles | src/utils.js:24-35 | A 1000 x 1 picture scales to 512 x 0.512. Its canvas is empty and the handler never settles, still showing the detecting message. |
| Upload.PriorViewForgotten | src/App.jsx:19-24 | Once a file is chosen, the earlier view has no effect on the outcome. |
| Upload.HttpFailureShowsGenericError | src/App.jsx:30-78 | A rejected fetch, a non-ok status or a non-JSON body gives the generic error with both lists empty and loading cleared. |
| Upload.EmptyCandidateListShowsGenericError | src/App.jsx:48-78 | A region without candidates gives the generic error with both lists empty. |
| Upload.NothingDetectedSkipsRecipes | src/App.jsx:53-71 | With no ingredient detected there is no error and no recipe, and the outcome depends on neither the SDK nor the chat call. |
| Upload.MissingResultsDetectNothing | src/App.jsx:48-51 | A successful reply without `segmentation_results` counts as zero ingredients, not as an error. |
| Upload.RecipeFailureKeepsIngredients | src/App.jsx:53-78 | If the chat call fails after detection, the detected ingredients stay, recipes stay empty and the generic error is set. |
| Upload.SuccessShowsIngredientsAndDishes | src/App.jsx:53-78 | On success the detected names and the reply's lines are shown, with no error and loading cleared. |
| Upload.SdkNeverLoadsLeavesHandlerPending | src/App.jsx:55-66 | If the SDK never appears, the handler never settles. Loading stays on with the recipe message and the detected names are shown. |
| Upload.UnansweredRequestLeavesDetecting | src/App.jsx:32-45 | If the segmentation `fetch` or its `json()` read never answers, the handler never settles and still shows the freshly reset view with the detecting message. |
| Upload.UnansweredChatLeavesFetching | src/App.jsx:55-69 | If the SDK loads but its chat call never answers, the handler never settles, showing the detected names with the recipe message. |
| Upload.UndecodablePictureLeavesLoading | src/App.jsx:20-30 | An undecodable picture rejects outside the `try`. The lists stay cleared, no error is set and loading stays on. |
| Channels.DropAlpha | src/YoloTest.jsx:28-29 | `4p` values become `3p`. Kept value `j` moves to `j - j / 4`, so channel `c < 3` of pixel `p` moves from `4p + c` to `3p + c`. Output value `k` is input `k + k / 3`, which is never an alpha position. |
| Channels.WriteIndex | src/YoloTest.jsx:37 | Every write index `c*n*n + y*n + x` lies in `[0, 3*n*n)`. |
| Channels.ReadIndex | src/YoloTest.jsx:38 | Every read index `y*n*3 + x*3 + c` lies in `[0, 3*n*n)`. |
| Channels.WriteIndexDecomposes | src/YoloTest.jsx:34-38 | Channel, row and column can be recovered from the write index. |
| Channels.SlotDecomposes | src/YoloTest.jsx:32-41 | Every output slot is the write index of some channel, row and column, so the write map is onto. |
| Channels.WriteIndexInjective | src/YoloTest.jsx:34-38 | Distinct (channel, row, column) triples never share a slot, so each slot is written exactly once. |
| Channels.SourceInjective | src/YoloTest.jsx:34-38 | Distinct output slots read distinct inputs, so the output rearranges the input. |
| Channels.ToChannelsFirst | src/YoloTest.jsx:32-41 | The output has length `3*n*n`, and `out[c*n*n + y*n + x] == data[y*n*3 + x*3 + c]` for every channel, row and column. |
| Channels.RgbaToChw | src/YoloTest.jsx:28-41 | Channel `c` of RGBA pixel `(y, x)` lands at `c*n*n + y*n + x`. |
| Channels.YoloInput | src/YoloTest.jsx:22-43 | A 640 x 640 canvas gives the 1 228 800 values of the `[1, 3, 640, 640]` tensor, laid out as above. |

## Left out

- Browser image work in src/utils.js: decoding into an `Image`, drawing on a canvas, JPEG encoding at quality 0.8, the warning above 1 MiB and building the `File`. Only the size rule is modelled. A picture either decodes to a size or fails.
- Canvas truncation of fractional sizes. Only its effect on an empty canvas is modelled (`Upload.Drawable`). The size handed to `segment` is the real-valued target, not the truncated integer size of the uploaded bitmap.
- Resize.FitWithin: computes over exact reals and does not model IEEE-754 double rounding. Its aspect-ratio equality holds over the reals only. In JavaScript, 515 x 37 under 512 gives a height of 36.78446601941747, and that times 515 is 18943.999999999996, not 18944.
- Resize.FitWithin: requires positive maxima and non-negative sizes. The only caller passes 512 and 512. Zero maxima would give zero sizes, and negative maxima give negative sizes or NaN.
- The network and SDK calls themselves: `fetch`, `FormData`, the bearer token, the URL, and `window.puter.ai.chat`. Their results are inputs. The HTTP status appears only in a log message, so it is not modelled.
- Console logging of errors and of the reply.
- The 50 ms polling for `window.puter`. Only its end matters here: the SDK eventually appears or it never does.
- JSON shapes beyond the expected ones: a `null` body, a candidate without `name`, `recognition_results` missing or not a list, a non-string `content`, an undefined chat response.
- The `/ 255` normalisation, Float32 rounding and the ONNX session load and run in src/YoloTest.jsx. They are floating point and a foreign runtime, so the element type is generic.
- Rendering, styles and the preview URL (`selectedImage`) in src/App.jsx. `loadingMessage` is modelled because the handler sets it.
- Overlapping uploads with no cancellation. This is a concurrency race; the model covers one handler run.
- src/ImageUpload.jsx, an earlier variant: a fetch plus a map of names with nothing beyond the logic above.

=== FILE: channels.dfy ===
/** Input preparation for the in-browser object detector (src/YoloTest.jsx):
    an `n x n` RGBA pixel buffer, row-major and interleaved (`HWC`), becomes a
    planar `3 x n x n` buffer (`CHW`), alpha dropped. YoloTest.jsx fixes
    `n = 640`; the element type is generic because the `/ 255` normalisation
    in between is left out. */
module Channels {

  /** The side the canvas is drawn at, 640 x 640. */
  const Side: nat := 640

  /** `m * d` for an integer `m` is at least `d` when `m >= 1`, at most `-d`
      when `m <= -1`, and never negative when `m >= 0`. */
  lemma MulSign(m: int, d: int)
    requires 0 < d
    ensures m >= 1 ==> m * d >= d
    ensures m >= 0 ==> m * d >= 0
    ensures m <= -1 ==> m * d <= -d
  {
  }

  /** Quotient and remainder are determined by `k == q * d + r`, `0 <= r < d`. */
  lemma DivModUnique(k: int, d: int, q: int, r: int)
    requires 0 < d && 0 <= r < d && k == q * d + r
    ensures k / d == q && k % d == r
  {
    var m := q - k / d;
    assert m * d == k % d - r;
    MulSign(m, d);
  }

  /** A number below `m * d` has quotient below `m`. */
  lemma DivBelow(k: int, d: int, m: int)
    requires 0 < d && 0 <= k < m * d
    ensures 0 <= k / d < m
  {
    var e := k / d - m;
    assert e * d == k / d * d - m * d;
    MulSign(e, d);
    MulSign(k / d, d);
  }

  /** Pixel `(y, x)` is pixel number `y * n + x` of the `n * n`. */
  lemma PixelBelowArea(n: nat, y: nat, x: nat)
    requires y < n && x < n
    ensures y * n + x < n * n
  {
    MulSign(n - 1 - y, n);
    assert (n - 1 - y) * n == n * n - n - y * n;
  }

  /** The number of pixel `(y, x)` in row-major order. */
  function Pixel(n: nat, y: nat, x: nat): (p: nat)
    requires y < n && x < n
    ensures p < n * n
    ensures p == y * n + x
  {
    PixelBelowArea(n, y, x);
    y * n + x
  }

  /** The slot channel `c` of pixel `(y, x)` is written to:
      `c * n * n + y * n + x`, always inside the `3 * n * n` output. */
  function WriteIndex(n: nat, c: nat, y: nat, x: nat): (k: nat)
    requires c < 3 && y < n && x < n
    ensures k < 3 * (n * n)
    ensures k == c * (n * n) + (y * n + x)
  {
    PixelBelowArea(n, y, x);
    MulSign(2 - c, n * n);
    assert (2 - c) * (n * n) == 2 * (n * n) - c * (n * n);
    assert c * n * n == c * (n * n);
    c * n * n + y * n + x
  }

  /** The slot channel `c` of pixel `(y, x)` is read from:
      `y * n * 3 + x * 3 + c`, always inside the `3 * n * n` input. */
  function ReadIndex(n: nat, c: nat, y: nat, x: nat): (j: nat)
    requires c < 3 && y < n && x < n
    ensures j < 3 * (n * n)
    ensures j == 3 * (y * n + x) + c
  {
    PixelBelowArea(n, y, x);
    assert y * n * 3 == 3 * (y * n);
    y * n * 3 + x * 3 + c
  }

  /** The write index determines channel, row and column: `k / (n * n)`,
      `k % (n * n) / n` and `k % (n * n) % n` give them back. */
  lemma WriteIndexDecomposes(n: nat, c: nat, y: nat, x: nat)
    requires c < 3 && y < n && x < n
    ensures var k := WriteIndex(n, c, y, x);
            && k / (n * n) == c
            && k % (n * n) / n == y
            && k % (n * n) % n == x
  {
    PixelBelowArea(n, y, x);
    DivModUnique(WriteIndex(n, c, y, x), n * n, c, y * n + x);
    DivModUnique(y * n + x, n, y, x);
  }

  /** Channel, row and column of output slot `k`. */
  function SlotChannel(n: nat, k: nat): (c: nat)
    requires k < 3 * (n * n)
    ensures c < 3
  {
    DivBelow(k, n * n, 3);
    k / (n * n)
  }

  function SlotRow(n: nat, k: nat): (y: nat)
    requires k < 3 * (n * n)
    ensures y < n
  {
    var r := k % (n * n);
    DivBelow(r, n, n);
    r / n
  }

  function SlotColumn(n: nat, k: nat): (x: nat)
    requires k < 3 * (n * n)
    ensures x < n
  {
    k % (n * n) % n
  }

  /** Every output slot is the write index of exactly the channel, row and
      column it decomposes into: the write map is onto `[0, 3 * n * n)`. */
  lemma SlotDecomposes(n: nat, k: nat)
    requires k < 3 * (n * n)
    ensures WriteIndex(n, SlotChannel(n, k), SlotRow(n, k), SlotColumn(n, k)) == k
  {
    var r := k % (n * n);
    assert k == SlotChannel(n, k) * (n * n) + r;
    assert r == SlotRow(n, k) * n + SlotColumn(n, k);
  }

  /** The write map is one-to-one: distinct (channel, row, column) triples
      never share a slot, so each slot is written exactly once. */
  lemma WriteIndexInjective(n: nat, c1: nat, y1: nat, x1: nat, c2: nat, y2: nat, x2: nat)
    requires c1 < 3 && y1 < n && x1 < n
    requires c2 < 3 && y2 < n && x2 < n
    requires WriteIndex(n, c1, y1, x1) == WriteIndex(n, c2, y2, x2)
    ensures c1 == c2 && y1 == y2 && x1 == x2
  {
    WriteIndexDecomposes(n, c1, y1, x1);
    WriteIndexDecomposes(n, c2, y2, x2);
  }

  /** Where output slot `k` takes its value from. */
  function Source(n: nat, k: nat): (j: nat)
    requires k < 3 * (n * n)
    ensures j < 3 * (n * n)
  {
    ReadIndex(n, SlotChannel(n, k), SlotRow(n, k), SlotColumn(n, k))
  }

  /** The read map is one-to-one as well: distinct slots read distinct
      inputs, so the output is a rearrangement of the input. */
  lemma SourceInjective(n: nat, k1: nat, k2: nat)
    requires k1 < 3 * (n * n) && k2 < 3 * (n * n)
    requires Source(n, k1) == Source(n, k2)
    ensures k1 == k2
  {
    var c1, y1, x1 := SlotChannel(n, k1), SlotRow(n, k1), SlotColumn(n, k1);
    var c2, y2, x2 := SlotChannel(n, k2), SlotRow(n, k2), SlotColumn(n, k2);
    PixelBelowArea(n, y1, x1);
    PixelBelowArea(n, y2, x2);
    DivModUnique(Source(n, k1), 3, y1 * n + x1, c1);
    DivModUnique(Source(n, k2), 3, y2 * n + x2, c2);
    DivModUnique(y1 * n + x1, n, y1, x1);
    DivModUnique(y2 * n + x2, n, y2, x2);
    SlotDecomposes(n, k1);
    SlotDecomposes(n, k2);
  }

  /** `Float32Array.from(data).filter((_, i) => i % 4 !== 3)`: drop every
      fourth value, the alpha byte of each RGBA pixel. */
  method DropAlpha<T>(rgba: seq<T>) returns (rgb: seq<T>)
    ensures |rgb| == |rgba| - |rgba| / 4
    ensures forall j :: 0 <= j < |rgba| && j % 4 != 3 ==> rgb[j - j / 4] == rgba[j]
    ensures forall k :: 0 <= k < |rgb| ==> (k + k / 3) % 4 != 3 && rgb[k] == rgba[k + k / 3]
  {
    rgb := [];
    var i := 0;
    while i < |rgba|
      invariant 0 <= i <= |rgba|
      invariant |rgb| == i - i / 4
      invariant forall j :: 0 <= j < i && j % 4 != 3 ==> rgb[j - j / 4] == rgba[j]
      invariant forall k :: 0 <= k < |rgb| ==> k + k / 3 < i && rgb[k] == rgba[k + k / 3]
    {
      DropAlphaStep(i);
      if i % 4 != 3 {
        rgb := rgb + [rgba[i]];
      }
      i := i + 1;
    }
  }

  /** Visiting position `i` keeps it, as output `i - i / 4`, unless it is an
      alpha byte. */
  lemma DropAlphaStep(i: nat)
    ensures (i + 1) - (i + 1) / 4 == i - i / 4 + (if i % 4 != 3 then 1 else 0)
    ensures i % 4 != 3 ==> (i - i / 4) + (i - i / 4) / 3 == i
  {
    var p, c := i / 4, i % 4;
    if c != 3 {
      DropAlphaPixel(p, c);
      DivModUnique(i + 1, 4, p, c + 1);
    } else {
      DivModUnique(i + 1, 4, p + 1, 0);
    }
  }

  /** Pixel `p`'s colour channel `c` moves from `4 * p + c` to `3 * p + c`. */
  lemma DropAlphaPixel(p: nat, c: nat)
    requires c < 3
    ensures (3 * p + c) + (3 * p + c) / 3 == 4 * p + c
    ensures (4 * p + c) - (4 * p + c) / 4 == 3 * p + c
  {
    DivModUnique(3 * p + c, 3, p, c);
    DivModUnique(4 * p + c, 4, p, c);
  }

  /** Read index `ReadIndex(n, c, y, x)` of the alpha-free buffer is channel
      `c` of pixel `Pixel(n, y, x)` in the RGBA buffer. */
  lemma DroppedAlphaAtPixel<T>(rgba: seq<T>, rgb: seq<T>, n: nat, c: nat, y: nat, x: nat)
    requires |rgba| == 4 * (n * n) && |rgb| == 3 * (n * n)
    requires c < 3 && y < n && x < n
    requires var j := ReadIndex(n, c, y, x); j + j / 3 < |rgba| && rgb[j] == rgba[j + j / 3]
    ensures rgb[ReadIndex(n, c, y, x)] == rgba[4 * Pixel(n, y, x) + c]
  {
    DropAlphaPixel(Pixel(n, y, x), c);
  }

  /** The transpose loop: output slot `c * n * n + y * n + x` receives input
      `y * n * 3 + x * 3 + c`. The output starts zero-filled, as a new
      `Float32Array` does, and `zero` is that fill value. */
  method ToChannelsFirst<T>(rgb: seq<T>, n: nat, zero: T) returns (chw: seq<T>)
    requires |rgb| == 3 * (n * n)
    ensures |chw| == 3 * (n * n)
    ensures forall c: nat, y: nat, x: nat :: c < 3 && y < n && x < n ==>
              chw[WriteIndex(n, c, y, x)] == rgb[ReadIndex(n, c, y, x)]
    ensures forall k :: 0 <= k < |chw| ==> chw[k] == rgb[Source(n, k)]
  {
    var area := n * n;
    var out := new T[3 * area](_ => zero);
    var written := 0;  // slots filled so far, and the next one: c * area + y * n + x
    var c := 0;
    while c < 3
      invariant c <= 3
      invariant written == c * area && written <= 3 * area
      invariant forall k :: 0 <= k < written ==> out[k] == rgb[Source(n, k)]
    {
      var y := 0;
      while y < n
        invariant y <= n
        invariant written == c * area + y * n && written <= 3 * area
        invariant forall k :: 0 <= k < written ==> out[k] == rgb[Source(n, k)]
      {
        var x := 0;
        while x < n
          invariant x <= n
          invariant written == c * area + y * n + x && written <= 3 * area
          invariant forall k :: 0 <= k < written ==> out[k] == rgb[Source(n, k)]
        {
          WriteIndexDecomposes(n, c, y, x);
          assert written == WriteIndex(n, c, y, x);
          out[written] := rgb[ReadIndex(n, c, y, x)];
          written := written + 1;
          x := x + 1;
        }
        assert c * area + y * n + n == c * area + (y + 1) * n;
        y := y + 1;
      }
      assert c * area + n * n == (c + 1) * area;
      c := c + 1;
    }
    chw := out[..];
    forall c: nat, y: nat, x: nat | c < 3 && y < n && x < n
      ensures chw[WriteIndex(n, c, y, x)] == rgb[ReadIndex(n, c, y, x)]
    {
      WriteIndexDecomposes(n, c, y, x);
    }
  }

  /** The whole preparation for an `n x n` image: channel `c` of pixel
      `(y, x)` of the RGBA buffer lands at `c * n * n + y * n + x`. */
  method RgbaToChw<T>(rgba: seq<T>, n: nat, zero: T) returns (chw: seq<T>)
    requires |rgba| == 4 * (n * n)
    ensures |chw| == 3 * (n * n)
    ensures forall c: nat, y: nat, x: nat :: c < 3 && y < n && x < n ==>
              chw[WriteIndex(n, c, y, x)] == rgba[4 * Pixel(n, y, x) + c]
  {
    var rgb := DropAlpha(rgba);
    DivModUnique(|rgba|, 4, n * n, 0);
    assert |rgb| == 3 * (n * n);
    chw := ToChannelsFirst(rgb, n, zero);
    forall c: nat, y: nat, x: nat | c < 3 && y < n && x < n
      ensures chw[WriteIndex(n, c, y, x)] == rgba[4 * Pixel(n, y, x) + c]
    {
      var j := ReadIndex(n, c, y, x);
      assert rgb[j] == rgba[j + j / 3];
      DroppedAlphaAtPixel(rgba, rgb, n, c, y, x);
    }
  }

  /** The detector's own instance: a 640 x 640 canvas gives the `[1, 3, 640, 640]`
      tensor's 1 228 800 values. */
  method YoloInput<T>(rgba: seq<T>, zero: T) returns (tensor: seq<T>)
    requires |rgba| == 4 * (Side * Side)
    ensures |tensor| == 1 * 3 * Side * Side == 1228800
    ensures forall c: nat, y: nat, x: nat :: c < 3 && y < Side && x < Side ==>
              tensor[WriteIndex(Side, c, y, x)] == rgba[4 * Pixel(Side, y, x) + c]
  {
    tensor := RgbaToChw(rgba, Side, zero);
  }
}

=== FILE: ingredients.dfy ===
/** Ingredient extraction from the segmentation service's JSON reply
    (src/App.jsx, the `detectedIngredients` expression): each region's best
    (first) candidate name, keeping only the first occurrence of each name;
    an absent `segmentation_results` gives the empty list. */
module Ingredients {
  import opened Results

  /** One recognition candidate; the service lists them best first. */
  datatype Candidate = Candidate(name: string)

  /** One segmented region of the photo with its candidate labels. */
  datatype Segment = Segment(recognitionResults: seq<Candidate>)

  /** The parsed reply body; the field may be absent. */
  datatype Payload = Payload(segmentationResults: Option<seq<Segment>>)

  /** Reading `recognition_results[0].name` of an empty candidate list throws
      a TypeError; `segment` is the index of the first region that does so. */
  datatype ExtractError = NoCandidate(segment: nat)

  predicate NoDuplicates<T(==)>(s: seq<T>)
  {
    forall i, j :: 0 <= i < j < |s| ==> s[i] != s[j]
  }

  /** `Array.prototype.indexOf`: the first position holding `v`, or -1. */
  function IndexOf<T(==)>(s: seq<T>, v: T): (i: int)
    ensures -1 <= i < |s|
    ensures i == -1 <==> v !in s
    ensures 0 <= i ==> s[i] == v
    ensures forall j :: 0 <= j < i ==> s[j] != v
    decreases |s|
  {
    if |s| == 0 then -1
    else if s[0] == v then 0
    else
      var j := IndexOf(s[1..], v);
      if j == -1 then -1 else j + 1
  }

  /** `s.filter((v, i, self) => self.indexOf(v) === i)`: position `i` is kept
      when it is the first occurrence of its value in the whole of `s`. */
  function KeepFirstOccurrences<T(==)>(s: seq<T>): (r: seq<T>)
    ensures FirstOccurrenceOrder(s, r)
    ensures |r| <= |s|
  {
    FullFilterMeaning(s);
    FilterUpTo(s, |s|)
  }

  /** The filter's output after it has visited positions `0 .. n-1`. */
  function FilterUpTo<T(==)>(s: seq<T>, n: nat): seq<T>
    requires n <= |s|
  {
    if n == 0 then []
    else FilterUpTo(s, n - 1) + (if IndexOf(s, s[n - 1]) == n - 1 then [s[n - 1]] else [])
  }

  /** The declarative meaning of the filter: `r` holds every value of `s`
      exactly once, ordered by where each value first occurs in `s`. */
  ghost predicate FirstOccurrenceOrder<T>(s: seq<T>, r: seq<T>)
  {
    NoDuplicates(r) && SameElements(r, s) && SortedByFirstIndex(s, r)
  }

  /** What the filter has produced after visiting the first `n` positions. */
  ghost predicate FilteredPrefix<T>(s: seq<T>, n: nat, p: seq<T>)
    requires n <= |s|
  {
    && NoDuplicates(p)
    && (forall i :: 0 <= i < |p| ==> 0 <= IndexOf(s, p[i]) < n)
    && (forall i :: 0 <= i < n ==> s[i] in p)
    && SortedByFirstIndex(s, p)
    && |p| <= n
  }

  lemma KeptStep<T>(s: seq<T>, n: nat, p: seq<T>)
    requires 0 < n <= |s| && FilteredPrefix(s, n - 1, p)
    requires IndexOf(s, s[n - 1]) == n - 1
    ensures FilteredPrefix(s, n, p + [s[n - 1]])
  {
    var q := p + [s[n - 1]];
    KeptIsNew(s, n, p);
    assert forall i :: 0 <= i < |q| ==> 0 <= IndexOf(s, q[i]) < n;
    KeptCovers(s, n, p);
  }

  /** The kept value is not yet in the output, and it comes after all of it. */
  lemma KeptIsNew<T>(s: seq<T>, n: nat, p: seq<T>)
    requires 0 < n <= |s| && FilteredPrefix(s, n - 1, p)
    requires IndexOf(s, s[n - 1]) == n - 1
    ensures NoDuplicates(p + [s[n - 1]])
    ensures SortedByFirstIndex(s, p + [s[n - 1]])
  {
    var q := p + [s[n - 1]];
    forall i | 0 <= i < |p|
      ensures p[i] != s[n - 1] && IndexOf(s, q[i]) < IndexOf(s, q[|p|])
    {
      assert q[i] == p[i] && q[|p|] == s[n - 1];
      assert IndexOf(s, p[i]) < n - 1;
    }
  }

  /** After keeping position `n - 1`, every value of the first `n` positions
      is in the output. */
  lemma KeptCovers<T>(s: seq<T>, n: nat, p: seq<T>)
    requires 0 < n <= |s| && FilteredPrefix(s, n - 1, p)
    ensures forall i :: 0 <= i < n ==> s[i] in p + [s[n - 1]]
  {
    var q := p + [s[n - 1]];
    forall i | 0 <= i < n
      ensures s[i] in q
    {
      if i < n - 1 {
        assert s[i] in p;
      } else {
        assert q[|p|] == s[i];
      }
    }
  }

  lemma SkippedStep<T>(s: seq<T>, n: nat, p: seq<T>)
    requires 0 < n <= |s| && FilteredPrefix(s, n - 1, p)
    requires IndexOf(s, s[n - 1]) != n - 1
    ensures FilteredPrefix(s, n, p)
  {
    var k := IndexOf(s, s[n - 1]);
    assert 0 <= k < n - 1;
    assert s[k] in p;
  }

  lemma {:induction false} FilterUpToMeaning<T>(s: seq<T>, n: nat)
    requires n <= |s|
    ensures FilteredPrefix(s, n, FilterUpTo(s, n))
  {
    if n > 0 {
      FilterUpToMeaning(s, n - 1);
      var p := FilterUpTo(s, n - 1);
      if IndexOf(s, s[n - 1]) == n - 1 {
        KeptStep(s, n, p);
      } else {
        SkippedStep(s, n, p);
      }
    }
  }

  /** The filter, run over the whole input, computes exactly the
      first-occurrence order of that input. */
  lemma FullFilterMeaning<T>(s: seq<T>)
    ensures FirstOccurrenceOrder(s, FilterUpTo(s, |s|))
    ensures |FilterUpTo(s, |s|)| <= |s|
  {
    var r := FilterUpTo(s, |s|);
    FilterUpToMeaning(s, |s|);
    forall i | 0 <= i < |r|
      ensures r[i] in s
    {
      var k := IndexOf(s, r[i]);
      assert s[k] == r[i];
    }
  }

  /** The first-occurrence order of `s` is unique: any two lists meeting it
      are the same list. Together with the contract of `KeepFirstOccurrences` this
      pins the filter's output down completely. */
  lemma FirstOccurrenceOrderUnique<T>(s: seq<T>, r1: seq<T>, r2: seq<T>)
    requires FirstOccurrenceOrder(s, r1) && FirstOccurrenceOrder(s, r2)
    ensures r1 == r2
  {
    assert SameElements(r1, r2) by {
      forall i | 0 <= i < |r1| ensures r1[i] in r2 {
        assert r1[i] in s;
        var k :| 0 <= k < |s| && s[k] == r1[i];
      }
      forall i | 0 <= i < |r2| ensures r2[i] in r1 {
        assert r2[i] in s;
        var k :| 0 <= k < |s| && s[k] == r2[i];
      }
    }
    SortedByFirstIndexUnique(s, r1, r2);
  }

  /** `r` is strictly increasing in the first-occurrence index of its values in `s`. */
  ghost predicate SortedByFirstIndex<T>(s: seq<T>, r: seq<T>)
  {
    forall i, j :: 0 <= i < j < |r| ==> IndexOf(s, r[i]) < IndexOf(s, r[j])
  }

  ghost predicate SameElements<T>(a: seq<T>, b: seq<T>)
  {
    (forall i :: 0 <= i < |a| ==> a[i] in b) && (forall i :: 0 <= i < |b| ==> b[i] in a)
  }

  lemma SameHead<T>(s: seq<T>, r1: seq<T>, r2: seq<T>)
    requires SameElements(r1, r2) && SortedByFirstIndex(s, r1) && SortedByFirstIndex(s, r2)
    requires |r1| > 0
    ensures |r2| > 0 && r1[0] == r2[0]
  {
    assert r1[0] in r2;
    var j :| 0 <= j < |r2| && r2[j] == r1[0];
    assert r2[0] in r1;
    var k :| 0 <= k < |r1| && r1[k] == r2[0];
    assert IndexOf(s, r1[0]) <= IndexOf(s, r1[k]);
    assert IndexOf(s, r2[0]) <= IndexOf(s, r2[j]);
    assert j == 0;
  }

  lemma SameTail<T>(s: seq<T>, r1: seq<T>, r2: seq<T>)
    requires SameElements(r1, r2) && SortedByFirstIndex(s, r1) && SortedByFirstIndex(s, r2)
    requires |r1| > 0 && |r2| > 0 && r1[0] == r2[0]
    ensures SameElements(r1[1..], r2[1..])
  {
    forall a | 1 <= a < |r1|
      ensures r1[a] in r2[1..]
    {
      assert IndexOf(s, r1[0]) < IndexOf(s, r1[a]);
      assert r1[a] in r2;
      var b :| 0 <= b < |r2| && r2[b] == r1[a];
      assert r2[1..][b - 1] == r1[a];
    }
    forall b | 1 <= b < |r2|
      ensures r2[b] in r1[1..]
    {
      assert IndexOf(s, r2[0]) < IndexOf(s, r2[b]);
      assert r2[b] in r1;
      var a :| 0 <= a < |r1| && r1[a] == r2[b];
      assert r1[1..][a - 1] == r2[b];
    }
  }

  lemma {:induction false} SortedByFirstIndexUnique<T>(s: seq<T>, r1: seq<T>, r2: seq<T>)
    requires SameElements(r1, r2) && SortedByFirstIndex(s, r1) && SortedByFirstIndex(s, r2)
    ensures r1 == r2
    decreases |r1|
  {
    if |r1| == 0 {
      if |r2| > 0 {
        SameHead(s, r2, r1);
      }
    } else {
      SameHead(s, r1, r2);
      SameTail(s, r1, r2);
      SortedByFirstIndexUnique(s, r1[1..], r2[1..]);
      assert r1 == [r1[0]] + r1[1..];
      assert r2 == [r2[0]] + r2[1..];
    }
  }

  /** A list without duplicates passes through the filter unchanged. */
  lemma DistinctListUnchanged<T>(s: seq<T>)
    requires NoDuplicates(s)
    ensures KeepFirstOccurrences(s) == s
  {
    forall i | 0 <= i < |s|
      ensures IndexOf(s, s[i]) == i
    {
      var k := IndexOf(s, s[i]);
      assert s[k] == s[i];
    }
    SortedByFirstIndexUnique(s, KeepFirstOccurrences(s), s);
  }

  /** The filter is idempotent. */
  lemma KeepFirstOccurrencesIdempotent<T>(s: seq<T>)
    ensures KeepFirstOccurrences(KeepFirstOccurrences(s)) == KeepFirstOccurrences(s)
  {
    DistinctListUnchanged(KeepFirstOccurrences(s));
  }

  /** Each region's best candidate, in region order; `.map` stops at the
      first region whose candidate list is empty. */
  function FirstNames(segments: seq<Segment>): (r: Result<seq<string>, ExtractError>)
    ensures r.Ok? <==> forall i :: 0 <= i < |segments| ==> segments[i].recognitionResults != []
    ensures r.Ok? ==> |r.value| == |segments|
    ensures r.Ok? ==> forall i :: 0 <= i < |segments| ==> r.value[i] == segments[i].recognitionResults[0].name
    ensures r.Err? ==> r.error.segment < |segments|
                       && segments[r.error.segment].recognitionResults == []
                       && forall i :: 0 <= i < r.error.segment ==> segments[i].recognitionResults != []
    decreases |segments|
  {
    if |segments| == 0 then Ok([])
    else if segments[0].recognitionResults == [] then Err(NoCandidate(0))
    else
      match FirstNames(segments[1..])
      case Ok(rest) => Ok([segments[0].recognitionResults[0].name] + rest)
      case Err(NoCandidate(k)) => Err(NoCandidate(k + 1))
  }

  /** The names shown to the user: `[]` when the field is absent, a thrown
      error when some region has no candidate, otherwise each region's best
      name kept at its first occurrence. */
  function ExtractIngredients(body: Payload): (r: Result<seq<string>, ExtractError>)
    ensures body.segmentationResults.None? ==> r == Ok([])
    ensures body.segmentationResults.Some? ==>
              var segments := body.segmentationResults.value;
              && (r.Err? <==> exists i :: 0 <= i < |segments| && segments[i].recognitionResults == [])
              && (r.Ok? ==> FirstOccurrenceOrder(FirstNames(segments).value, r.value))
    ensures r.Ok? ==> NoDuplicates(r.value)
  {
    match body.segmentationResults
    case None => Ok([])
    case Some(segments) =>
      match FirstNames(segments)
      case Ok(names) =>
        Ok(KeepFirstOccurrences(names))
      case Err(e) => Err(e)
  }

  /** Two regions labelled "egg" and one labelled "milk" give
      `["egg", "milk"]`. */
  lemma EggMilkExample()
    ensures ExtractIngredients(Payload(Some([
              Segment([Candidate("egg")]),
              Segment([Candidate("egg")]),
              Segment([Candidate("milk")])]))) == Ok(["egg", "milk"])
  {
    var egg, milk := Segment([Candidate("egg")]), Segment([Candidate("milk")]);
    var names := ["egg", "egg", "milk"];
    var segments := [egg, egg, milk];
    var r := FirstNames(segments);
    assert r.Ok? && |r.value| == 3;
    assert r.value[0] == segments[0].recognitionResults[0].name == "egg";
    assert r.value[1] == segments[1].recognitionResults[0].name == "egg";
    assert r.value[2] == segments[2].recognitionResults[0].name == "milk";
    assert r.value == names;
    assert IndexOf(names, "egg") == 0;
    assert IndexOf(names[2..], "milk") == 0;
    assert IndexOf(names[1..], "milk") == 1;
    assert IndexOf(names, "milk") == 2;
    assert FilterUpTo(names, 1) == ["egg"];
    assert FilterUpTo(names, 2) == ["egg"];
    assert FilterUpTo(names, 3) == ["egg", "milk"];
  }
}

=== FILE: recipes.dfy ===
/** Recipe suggestion (src/puterClient.js, `getRecipeFromIngredients`): build
    a chat prompt around the ingredient list, send it through the ambient chat
    SDK, and split the reply's text into lines. The SDK call is a parameter. */
module Recipes {
  import opened Results

  /** The template literal's text before and after `${ingredients.join(", ")}`,
      trailing spaces included. */
  const PromptHead: string :=
    "\nYou are a chef assistant. Given the following ingredients detected in an image: "
  const PromptTail: string :=
    ", \nsuggest 5 commonly known dishes that can be made using only these ingredients. "
    + "\nDo not include ingredients that are not listed. "
    + "\nUse the most popular or commonly used names for the dishes. "
    + "\nReturn only the dish names, separated by new lines.\n"
  const IngredientSeparator: string := ", "
  const LineBreak: string := "\n"

  /** `Array.prototype.join(sep)` on strings: `[]` joins to `""`, one part
      joins to itself, and otherwise the result starts with the first part. */
  function Join(parts: seq<string>, sep: string): (joined: string)
    ensures |parts| == 0 ==> joined == ""
    ensures |parts| > 0 ==> parts[0] <= joined
    decreases |parts|
  {
    if |parts| == 0 then ""
    else if |parts| == 1 then parts[0]
    else parts[0] + sep + Join(parts[1..], sep)
  }

  /** Where part `i` starts in the joined string: the lengths of the parts
      before it plus one separator after each of them. */
  function Offset(parts: seq<string>, sep: string, i: nat): nat
    requires i <= |parts|
    decreases i
  {
    if i == 0 then 0 else |parts[0]| + |sep| + Offset(parts[1..], sep, i - 1)
  }

  lemma JoinUnfold(parts: seq<string>, sep: string)
    requires |parts| > 1
    ensures Join(parts, sep) == parts[0] + sep + Join(parts[1..], sep)
    ensures Offset(parts, sep, 1) == |parts[0]| + |sep|
  {
  }

  /** A slice of `a + b` lying wholly after `a` is a slice of `b`. */
  lemma SliceAfterPrefix(a: string, b: string, lo: nat, hi: nat)
    requires lo <= hi <= |b|
    ensures (a + b)[|a| + lo..|a| + hi] == b[lo..hi]
  {
  }

  /** Part `i` sits at `Offset(parts, sep, i)` of the joined string: the
      parts appear in order, each exactly once. */
  lemma {:induction false} JoinPlacesPart(parts: seq<string>, sep: string, i: nat)
    requires i < |parts|
    ensures Offset(parts, sep, i) + |parts[i]| <= |Join(parts, sep)|
    ensures Join(parts, sep)[Offset(parts, sep, i)..Offset(parts, sep, i) + |parts[i]|] == parts[i]
    ensures i + 1 == |parts| ==> Offset(parts, sep, i) + |parts[i]| == |Join(parts, sep)|
    decreases i
  {
    if i == 0 {
      if |parts| > 1 {
        JoinUnfold(parts, sep);
      }
    } else {
      var tail := parts[1..];
      JoinPlacesPart(tail, sep, i - 1);
      JoinUnfold(parts, sep);
      assert tail[i - 1] == parts[i];
      var o := Offset(tail, sep, i - 1);
      SliceAfterPrefix(parts[0] + sep, Join(tail, sep), o, o + |parts[i]|);
    }
  }

  /** Between part `i` and part `i + 1` there is exactly one separator. */
  lemma {:induction false} JoinSeparatesParts(parts: seq<string>, sep: string, i: nat)
    requires i + 1 < |parts|
    ensures Offset(parts, sep, i + 1) == Offset(parts, sep, i) + |parts[i]| + |sep|
    ensures Offset(parts, sep, i + 1) <= |Join(parts, sep)|
    ensures Join(parts, sep)[Offset(parts, sep, i) + |parts[i]|..Offset(parts, sep, i + 1)] == sep
    decreases i
  {
    JoinUnfold(parts, sep);
    var tail := parts[1..];
    if i == 0 {
      assert Join(parts, sep)[|parts[0]|..|parts[0]| + |sep|] == sep;
    } else {
      JoinSeparatesParts(tail, sep, i - 1);
      assert tail[i - 1] == parts[i];
      var o := Offset(tail, sep, i - 1) + |parts[i]|;
      SliceAfterPrefix(parts[0] + sep, Join(tail, sep), o, Offset(tail, sep, i));
    }
  }

  /** The prompt sent to the chat SDK: the template's opening text, then
      every ingredient in the given order at the place the ", "-join puts it,
      then the closing instructions. */
  function BuildPrompt(ingredients: seq<string>): (prompt: string)
    ensures |prompt| == |PromptHead| + |Join(ingredients, IngredientSeparator)| + |PromptTail|
    ensures prompt[..|PromptHead|] == PromptHead
    ensures prompt[|prompt| - |PromptTail|..] == PromptTail
    ensures forall i :: 0 <= i < |ingredients| ==>
              var start := |PromptHead| + Offset(ingredients, IngredientSeparator, i);
              && start + |ingredients[i]| <= |prompt| - |PromptTail|
              && prompt[start..start + |ingredients[i]|] == ingredients[i]
  {
    PlacedBetween(PromptHead, ingredients, IngredientSeparator, PromptTail);
    PromptHead + Join(ingredients, IngredientSeparator) + PromptTail
  }

  /** Every part lands between `head` and `tail`, at its place in the join. */
  lemma PlacedBetween(head: string, parts: seq<string>, sep: string, tail: string)
    ensures var whole := head + Join(parts, sep) + tail;
            forall i :: 0 <= i < |parts| ==>
              var start := |head| + Offset(parts, sep, i);
              && start + |parts[i]| <= |whole| - |tail|
              && whole[start..start + |parts[i]|] == parts[i]
  {
    var j := Join(parts, sep);
    var whole := head + j + tail;
    forall i | 0 <= i < |parts|
      ensures var start := |head| + Offset(parts, sep, i);
              && start + |parts[i]| <= |whole| - |tail|
              && whole[start..start + |parts[i]|] == parts[i]
    {
      JoinPlacesPart(parts, sep, i);
      var o := Offset(parts, sep, i);
      assert whole == head + (j + tail);
      SliceAfterPrefix(head, j + tail, o, o + |parts[i]|);
      assert (j + tail)[o..o + |parts[i]|] == j[o..o + |parts[i]|];
    }
  }

  /** Consecutive ingredients are separated in the prompt by exactly ", ". */
  lemma PromptSeparatesIngredients(ingredients: seq<string>, i: nat)
    requires i + 1 < |ingredients|
    ensures var start := |PromptHead| + Offset(ingredients, IngredientSeparator, i);
            var next := |PromptHead| + Offset(ingredients, IngredientSeparator, i + 1);
            && start + |ingredients[i]| + 2 == next
            && next <= |BuildPrompt(ingredients)|
            && BuildPrompt(ingredients)[start + |ingredients[i]|..next] == ", "
  {
    SeparatedBetween(PromptHead, ingredients, IngredientSeparator, PromptTail, i);
  }

  /** Between parts `i` and `i + 1` of `head + Join(parts, sep) + tail`
      there is exactly one `sep`. */
  lemma SeparatedBetween(head: string, parts: seq<string>, sep: string, tail: string, i: nat)
    requires i + 1 < |parts|
    ensures var start := |head| + Offset(parts, sep, i);
            var next := |head| + Offset(parts, sep, i + 1);
            && start + |parts[i]| + |sep| == next
            && next <= |head + Join(parts, sep) + tail|
            && (head + Join(parts, sep) + tail)[start + |parts[i]|..next] == sep
  {
    JoinSeparatesParts(parts, sep, i);
    var j := Join(parts, sep);
    var lo := Offset(parts, sep, i) + |parts[i]|;
    var hi := Offset(parts, sep, i + 1);
    assert head + j + tail == head + (j + tail);
    SliceAfterPrefix(head, j + tail, lo, hi);
    assert (j + tail)[lo..hi] == j[lo..hi];
  }

  /** Detected "egg" and "milk" appear in the prompt as "egg, milk". */
  lemma EggMilkPrompt()
    ensures BuildPrompt(["egg", "milk"]) == PromptHead + "egg, milk" + PromptTail
  {
    var parts := ["egg", "milk"];
    JoinUnfold(parts, IngredientSeparator);
    assert parts[1..] == ["milk"];
    assert Join(parts, IngredientSeparator) == "egg, milk";
  }

  /** `content.split("\n")`: never empty; `""` splits to `[""]`. */
  function SplitLines(content: string): (lines: seq<string>)
    ensures |lines| >= 1
    decreases |content|
  {
    if |content| == 0 then [""]
    else
      var rest := SplitLines(content[1..]);
      if content[0] == '\n' then [""] + rest
      else [[content[0]] + rest[0]] + rest[1..]
  }

  /** Number of occurrences of `c` in `s`. */
  function Count(s: string, c: char): nat
    decreases |s|
  {
    if |s| == 0 then 0 else (if s[0] == c then 1 else 0) + Count(s[1..], c)
  }

  /** `lines` is what splitting `content` at every line break gives: joined
      back with "\n" they reproduce `content`, and no line holds a break. */
  ghost predicate IsLineSplit(content: string, lines: seq<string>)
  {
    && |lines| >= 1
    && Join(lines, LineBreak) == content
    && forall i :: 0 <= i < |lines| ==> '\n' !in lines[i]
  }

  lemma {:induction false} SplitLinesMeaning(content: string)
    ensures IsLineSplit(content, SplitLines(content))
    ensures |SplitLines(content)| == Count(content, '\n') + 1
    decreases |content|
  {
    if |content| > 0 {
      var rest := SplitLines(content[1..]);
      SplitLinesMeaning(content[1..]);
      var lines := SplitLines(content);
      if content[0] == '\n' {
        assert lines == [""] + rest;
        assert lines[1..] == rest;
        assert Join(lines, LineBreak) == "" + LineBreak + Join(rest, LineBreak);
        assert content == [content[0]] + content[1..];
        forall i | 0 <= i < |lines|
          ensures '\n' !in lines[i]
        {
          if i > 0 {
            assert lines[i] == rest[i - 1];
          }
        }
      } else {
        var first := [content[0]] + rest[0];
        assert lines == [first] + rest[1..];
        assert lines[1..] == rest[1..];
        if |rest| == 1 {
          assert Join(lines, LineBreak) == first;
          assert Join(rest, LineBreak) == rest[0];
        } else {
          assert Join(lines, LineBreak) == first + LineBreak + Join(rest[1..], LineBreak);
          assert Join(rest, LineBreak) == rest[0] + LineBreak + Join(rest[1..], LineBreak);
        }
        assert content == [content[0]] + content[1..];
        forall i | 0 <= i < |lines|
          ensures '\n' !in lines[i]
        {
          if i > 0 {
            assert lines[i] == rest[i];
          } else {
            assert '\n' !in rest[0];
          }
        }
      }
    }
  }

  /** Splitting a line break-free string preceded by `line` and "\n". */
  lemma {:induction false} SplitAfterLine(line: string, more: string)
    requires '\n' !in line
    ensures SplitLines(line + LineBreak + more) == [line] + SplitLines(more)
    decreases |line|
  {
    var s := line + LineBreak + more;
    if |line| == 0 {
      assert s == LineBreak + more;
      assert s[1..] == more;
    } else {
      SplitAfterLine(line[1..], more);
      assert s[1..] == line[1..] + LineBreak + more;
      assert s[0] == line[0];
      assert [line[0]] + line[1..] == line;
    }
  }

  /** A string without line breaks splits to itself alone. */
  lemma {:induction false} SplitSingleLine(line: string)
    requires '\n' !in line
    ensures SplitLines(line) == [line]
    decreases |line|
  {
    if |line| > 0 {
      SplitSingleLine(line[1..]);
      assert [line[0]] + line[1..] == line;
    }
  }

  /** Joining lines that hold no break and splitting again gives them back. */
  lemma {:induction false} SplitJoinedLines(lines: seq<string>)
    requires |lines| >= 1
    requires forall i :: 0 <= i < |lines| ==> '\n' !in lines[i]
    ensures SplitLines(Join(lines, LineBreak)) == lines
    decreases |lines|
  {
    if |lines| == 1 {
      SplitSingleLine(lines[0]);
    } else {
      var rest := lines[1..];
      assert forall i :: 0 <= i < |rest| ==> '\n' !in rest[i] by {
        forall i | 0 <= i < |rest| ensures '\n' !in rest[i] {
          assert rest[i] == lines[i + 1];
        }
      }
      SplitJoinedLines(rest);
      assert '\n' !in lines[0];
      SplitAfterLine(lines[0], Join(rest, LineBreak));
      assert lines == [lines[0]] + rest;
    }
  }

  /** The split is the only line list `IsLineSplit` admits. */
  lemma LineSplitUnique(content: string, lines: seq<string>)
    requires IsLineSplit(content, lines)
    ensures lines == SplitLines(content)
  {
    SplitJoinedLines(lines);
  }

  /** The chat reply's `message`, whose `content` may be missing. */
  datatype ChatMessage = ChatMessage(content: Option<string>)

  /** What `await window.puter.ai.chat(prompt)` did: rejected (or threw),
      never settled (nothing bounds the wait), or returned a response whose
      `message` may be missing. */
  datatype ChatOutcome = ChatThrew | ChatHung | ChatReturned(message: Option<ChatMessage>)

  datatype RecipeError =
    | SdkNotLoaded   // `window.puter` was absent
    | ChatFailed     // the chat call rejected

  /** How the promise of `getRecipeFromIngredients` ends: resolved with the
      dish lines, rejected, or never settled because the chat call never
      answered. */
  datatype RecipeCall = Resolved(dishes: seq<string>) | Failed(error: RecipeError) | NeverAnswered

  /** `response.message?.content || ""`. */
  function ReplyContent(message: Option<ChatMessage>): string
  {
    match message
    case Some(ChatMessage(Some(text))) => text
    case _ => ""
  }

  /** The whole of `getRecipeFromIngredients`; `chat` stands for the SDK's
      chat call and is consulted only with the built prompt. */
  function GetRecipeFromIngredients(sdkLoaded: bool, ingredients: seq<string>, chat: string -> ChatOutcome)
    : (r: RecipeCall)
    ensures !sdkLoaded ==> r == Failed(SdkNotLoaded)
    ensures sdkLoaded ==> (r.Failed? <==> chat(BuildPrompt(ingredients)).ChatThrew?)
    ensures sdkLoaded ==> (r.NeverAnswered? <==> chat(BuildPrompt(ingredients)).ChatHung?)
    ensures r.Failed? ==> (r.error == SdkNotLoaded <==> !sdkLoaded)
    ensures r.Resolved? ==> IsLineSplit(ReplyContent(chat(BuildPrompt(ingredients)).message), r.dishes)
    ensures r.Resolved? ==> |r.dishes| == Count(ReplyContent(chat(BuildPrompt(ingredients)).message), '\n') + 1
  {
    if !sdkLoaded then Failed(SdkNotLoaded)
    else
      match chat(BuildPrompt(ingredients))
      case ChatThrew => Failed(ChatFailed)
      case ChatHung => NeverAnswered
      case ChatReturned(message) =>
        var content := ReplyContent(message);
        SplitLinesMeaning(content);
        Resolved(SplitLines(content))
  }

  /** With the SDK absent nothing else happens: the outcome does not depend
      on the chat call or the ingredients. */
  lemma AbsentSdkFailsFirst(ingredients: seq<string>, other: seq<string>,
                            chat: string -> ChatOutcome, otherChat: string -> ChatOutcome)
    ensures GetRecipeFromIngredients(false, ingredients, chat)
         == GetRecipeFromIngredients(false, other, otherChat)
  {
  }

  /** A reply whose message or content is missing, or empty, gives one empty
      recipe name rather than none. */
  lemma MissingContentGivesOneEmptyLine(ingredients: seq<string>, chat: string -> ChatOutcome)
    requires chat(BuildPrompt(ingredients)) in
               {ChatReturned(None), ChatReturned(Some(ChatMessage(None))), ChatReturned(Some(ChatMessage(Some(""))))}
    ensures GetRecipeFromIngredients(true, ingredients, chat) == Resolved([""])
  {
    LineSplitUnique("", GetRecipeFromIngredients(true, ingredients, chat).dishes);
  }

  /** Lines are kept as they come: blank and repeated names survive, in order. */
  lemma BlankAndRepeatedLinesKept(ingredients: seq<string>, chat: string -> ChatOutcome)
    requires chat(BuildPrompt(ingredients)) == ChatReturned(Some(ChatMessage(Some("Soup\n\nSoup"))))
    ensures GetRecipeFromIngredients(true, ingredients, chat) == Resolved(["Soup", "", "Soup"])
  {
    var lines := ["Soup", "", "Soup"];
    assert Join(lines, LineBreak) == "Soup\n\nSoup" by {
      assert Join(lines[2..], LineBreak) == "Soup";
      assert Join(lines[1..], LineBreak) == "" + LineBreak + "Soup";
    }
    assert forall i :: 0 <= i < |lines| ==> '\n' !in lines[i];
    SplitJoinedLines(lines);
  }

  lemma FiveDishesJoined()
    ensures Join(["Pancakes", "Omelette", "Custard", "French Toast", "Crepes"], LineBreak)
            == "Pancakes" + LineBreak + "Omelette" + LineBreak + "Custard" + LineBreak
               + "French Toast" + LineBreak + "Crepes"
  {
    var lines := ["Pancakes", "Omelette", "Custard", "French Toast", "Crepes"];
    JoinUnfold(lines, LineBreak);
    JoinUnfold(lines[1..], LineBreak);
    JoinUnfold(lines[2..], LineBreak);
    JoinUnfold(lines[3..], LineBreak);
    assert lines[4..] == ["Crepes"];
  }

  /** A five-line reply gives those five dish names in order. */
  lemma FiveDishesExample(chat: string -> ChatOutcome)
    requires chat(BuildPrompt(["egg", "milk"]))
             == ChatReturned(Some(ChatMessage(Some(
                  "Pancakes" + LineBreak + "Omelette" + LineBreak + "Custard" + LineBreak
                  + "French Toast" + LineBreak + "Crepes"))))
    ensures GetRecipeFromIngredients(true, ["egg", "milk"], chat)
            == Resolved(["Pancakes", "Omelette", "Custard", "French Toast", "Crepes"])
  {
    var lines := ["Pancakes", "Omelette", "Custard", "French Toast", "Crepes"];
    FiveDishesJoined();
    assert forall i :: 0 <= i < |lines| ==> '\n' !in lines[i];
    SplitJoinedLines(lines);
  }
}

=== FILE: resize.dfy ===
/** The dimension rule of `resizeAndCompressImage` (src/utils.js): given the
    decoded image's size and the two maxima, pick the canvas size the image is
    redrawn at before JPEG re-encoding. Arithmetic is over the reals: the
    model is exact where the JavaScript doubles round, so its aspect-ratio
    equality holds of the ideal quotient, not of the rounded one. */
module Resize {

  datatype Dims = Dims(width: real, height: real)

  /** Target size. The dominant side is chosen by a strict `width > height`,
      so a square image is bounded by `maxHeight`. */
  function FitWithin(width: real, height: real, maxWidth: real, maxHeight: real): (r: Dims)
    requires 0.0 <= width && 0.0 <= height
    requires 0.0 < maxWidth && 0.0 < maxHeight
    ensures r.width * height == r.height * width
    ensures 0.0 <= r.width <= width && 0.0 <= r.height <= height
    ensures if width > height then r.width <= maxWidth else r.height <= maxHeight
  {
    if width > height then
      if width > maxWidth then
        ScaleFacts(height, maxWidth, width);
        Dims(maxWidth, height * maxWidth / width)
      else Dims(width, height)
    else
      if height > maxHeight then
        ScaleFacts(width, maxHeight, height);
        Dims(width * maxHeight / height, maxHeight)
      else Dims(width, height)
  }

  /** Scaling the minor side `minor` by `bound / major` keeps it between zero,
      the bound and its old value whenever the major side is the larger. */
  lemma ScaleFacts(minor: real, bound: real, major: real)
    requires 0.0 <= minor <= major && 0.0 < bound < major
    ensures 0.0 <= minor * bound / major <= bound
    ensures minor * bound / major <= minor
    ensures (minor * bound / major) * major == minor * bound
  {
    var q := minor * bound / major;
    assert q * major == minor * bound;
    assert minor * bound <= major * bound;
    assert minor * bound <= minor * major;
    DivMonotone(minor * bound, major * bound, major);
    DivMonotone(minor * bound, minor * major, major);
    DivMonotone(0.0, minor * bound, major);
  }

  /** A landscape image wider than `maxWidth` is brought down to exactly
      `maxWidth`, its height scaled by the same factor. */
  lemma WideImageClampedToMaxWidth(width: real, height: real, maxWidth: real, maxHeight: real)
    requires 0.0 <= height < width
    requires 0.0 < maxWidth < width && 0.0 < maxHeight
    ensures FitWithin(width, height, maxWidth, maxHeight).width == maxWidth
    ensures FitWithin(width, height, maxWidth, maxHeight).height * width == height * maxWidth
  {
  }

  /** A portrait or square image taller than `maxHeight` is brought down to
      exactly `maxHeight`, its width scaled by the same factor. */
  lemma TallImageClampedToMaxHeight(width: real, height: real, maxWidth: real, maxHeight: real)
    requires 0.0 <= width <= height
    requires 0.0 < maxHeight < height && 0.0 < maxWidth
    ensures FitWithin(width, height, maxWidth, maxHeight).height == maxHeight
    ensures FitWithin(width, height, maxWidth, maxHeight).width * height == width * maxHeight
  {
  }

  /** The size passes through unchanged exactly when the dominant side is
      already within its own maximum: there is no upscaling. */
  lemma UnchangedIffDominantSideFits(width: real, height: real, maxWidth: real, maxHeight: real)
    requires 0.0 <= width && 0.0 <= height
    requires 0.0 < maxWidth && 0.0 < maxHeight
    ensures FitWithin(width, height, maxWidth, maxHeight) == Dims(width, height)
            <==> (if width > height then width <= maxWidth else height <= maxHeight)
  {
  }

  /** A square image is governed by `maxHeight` alone: `maxWidth` plays no part. */
  lemma SquareIgnoresMaxWidth(side: real, maxWidth: real, otherMaxWidth: real, maxHeight: real)
    requires 0.0 <= side
    requires 0.0 < maxWidth && 0.0 < otherMaxWidth && 0.0 < maxHeight
    ensures FitWithin(side, side, maxWidth, maxHeight) == FitWithin(side, side, otherMaxWidth, maxHeight)
    ensures FitWithin(side, side, maxWidth, maxHeight).height <= maxHeight
  {
  }

  /** With equal maxima, as at the call site in src/App.jsx, both sides end
      up within the bound. */
  lemma EqualMaximaBoundBothSides(width: real, height: real, bound: real)
    requires 0.0 <= width && 0.0 <= height && 0.0 < bound
    ensures FitWithin(width, height, bound, bound).width <= bound
    ensures FitWithin(width, height, bound, bound).height <= bound
  {
    if width > height && width > bound {
      ScaleFacts(height, bound, width);
    } else if width <= height && height > bound {
      ScaleFacts(width, bound, height);
    }
  }

  /** With unequal maxima the side that is not dominant is never compared
      with its own maximum and may exceed it. */
  lemma UnequalMaximaMayExceed()
    ensures FitWithin(100.0, 200.0, 50.0, 1000.0) == Dims(100.0, 200.0)
    ensures FitWithin(100.0, 200.0, 50.0, 1000.0).width > 50.0
  {
  }

  /** Dividing by a positive number keeps the order. */
  lemma DivMonotone(x: real, y: real, d: real)
    requires x <= y && 0.0 < d
    ensures x / d <= y / d
  {
  }

  lemma DivStrictlyMonotone(x: real, y: real, d: real)
    requires x < y && 0.0 < d
    ensures x / d < y / d
  {
  }

  /** A strictly smaller minor side stays strictly below the bound. */
  lemma StrictScale(minor: real, bound: real, major: real)
    requires 0.0 <= minor < major && 0.0 < bound < major
    ensures minor * bound / major < bound
  {
    var q := minor * bound / major;
    assert q * major == minor * bound;
    assert minor * bound < major * bound;
    DivStrictlyMonotone(minor * bound, major * bound, major);
  }

  /** Resizing a second time changes nothing: the result's dominant side is
      the input's and already fits. */
  lemma FitWithinIdempotent(width: real, height: real, maxWidth: real, maxHeight: real)
    requires 0.0 <= width && 0.0 <= height
    requires 0.0 < maxWidth && 0.0 < maxHeight
    ensures var r := FitWithin(width, height, maxWidth, maxHeight);
            FitWithin(r.width, r.height, maxWidth, maxHeight) == r
  {
    var r := FitWithin(width, height, maxWidth, maxHeight);
    if width > height && width > maxWidth {
      ScaleFacts(height, maxWidth, width);
      StrictScale(height, maxWidth, width);
      assert r.width > r.height;
    } else if width <= height && height > maxHeight {
      ScaleFacts(width, maxHeight, height);
      assert r.width <= r.height;
    }
  }
}

=== FILE: results.dfy ===
/** Failure-carrying values shared by the model: an optional value and a
    success-or-error result, standing for JavaScript's `undefined` and for
    a thrown exception respectively. */
module Results {

  datatype Option<+T> = None | Some(value: T)

  datatype Result<+T, +E> = Ok(value: T) | Err(error: E)
}

=== FILE: upload.dfy ===
/** The upload handler of the app's main component (src/App.jsx,
    `handleImageUpload`): reset the view, shrink the picture, ask the
    segmentation service for ingredients, and, when some were found, wait
    for the chat SDK and ask it for dishes. The view the component renders
    and the way the asynchronous handler ends are the outcome; the browser,
    the HTTP service and the SDK are parameters. */
module Upload {
  import opened Results
  import Resize
  import Ingredients
  import Recipes

  /** Both maxima passed to `resizeAndCompressImage`. */
  const MaxSide: real := 512.0

  const GenericError: string := "Failed to recognize ingredients or fetch recipes."
  const DetectingMessage: string := "Detecting ingredients..."
  const FetchingMessage: string := "Fetching recipe suggestions..."

  /** The component state the handler writes. */
  datatype View = View(
    ingredients: seq<string>,
    recipes: seq<string>,
    loading: bool,
    loadingMessage: string,
    error: Option<string>)

  /** What the browser's image decoder makes of the chosen file. */
  datatype Picture = Undecodable | Decoded(width: nat, height: nat)

  /** The segmentation request: the fetch rejected; the fetch, or the
      `json()` read of its body, never settled (nothing bounds either wait);
      or a reply arrived with its `ok` flag and its body, absent when the
      body is not JSON. */
  datatype HttpReply =
    | NetworkFailure
    | NoAnswer
    | Reply(ok: bool, body: Option<Ingredients.Payload>)

  /** How the handler's promise ends: it returns, it rejects (an exception
      outside the `try`), or it never settles (an empty canvas, a request
      that never answers, or an SDK that never appears). */
  datatype Settled = Returned | Rejected | Pending

  datatype Run = Run(view: View, settled: Settled)

  /** How the `try` block ends, with the view as it stood at that point. */
  datatype TryEnd = Completed(view: View) | Threw(view: View) | Stuck(view: View)

  /** The size the picture is redrawn at before upload. */
  function UploadSize(width: nat, height: nat): (size: Resize.Dims)
    ensures size.width <= MaxSide && size.height <= MaxSide
    ensures size.width <= width as real && size.height <= height as real
    ensures size.width * (height as real) == size.height * (width as real)
  {
    Resize.EqualMaximaBoundBothSides(width as real, height as real, MaxSide);
    Resize.FitWithin(width as real, height as real, MaxSide, MaxSide)
  }

  /** The view right after a file is chosen: every field the component
      keeps is overwritten, so the earlier view plays no part. */
  const StartedView: View := View([], [], true, DetectingMessage, None)

  /** The canvas takes each side truncated to an integer; a side below one
      pixel leaves it empty, and `toBlob` then hands `null` to a callback
      that reads `blob.size`. That TypeError is thrown in the asynchronous
      callback, after the promise executor has returned, so nothing ever
      resolves or rejects the promise of `resizeAndCompressImage`. */
  predicate Drawable(size: Resize.Dims)
  {
    1.0 <= size.width && 1.0 <= size.height
  }

  /** The ingredient list the reply yields, when it yields one: none for a
      failed or unanswered request, a non-ok status, a body that is not JSON
      or a region without candidates (each of these throws or waits in the
      `try` block before `setIngredients`). */
  function Detected(reply: HttpReply): (r: Option<seq<string>>)
    ensures r.None? <==>
              || !reply.Reply? || !reply.ok || reply.body.None?
              || (var regions := reply.body.value.segmentationResults;
                  regions.Some? && exists i :: 0 <= i < |regions.value| && regions.value[i].recognitionResults == [])
    ensures r.Some? ==> Ingredients.NoDuplicates(r.value)
    ensures r.Some? && reply.body.value.segmentationResults.None? ==> r.value == []
  {
    if reply.Reply? && reply.ok && reply.body.Some? then
      match Ingredients.ExtractIngredients(reply.body.value)
      case Ok(names) => Some(names)
      case Err(_) => None
    else None
  }

  /** The `try` block, from the segmentation reply on, entered with the
      started view. It never touches the error or the loading flag. It
      throws with the view untouched exactly when the reply, having arrived,
      yields no ingredient list. It waits forever exactly when the request
      never answers, or there are ingredients and either the SDK never
      appears or its chat call never answers. Recipes are shown only next
      to a non-empty ingredient list. */
  function TryBlock(reply: HttpReply, sdkEventuallyLoads: bool,
                    chat: string -> Recipes.ChatOutcome): (end: TryEnd)
    ensures end.view.error.None? && end.view.loading
    ensures end == Threw(StartedView) <==> !reply.NoAnswer? && Detected(reply).None?
    ensures reply.NoAnswer? ==> end == Stuck(StartedView)
    ensures end.Stuck? <==>
              || reply.NoAnswer?
              || (&& Detected(reply).Some? && Detected(reply).value != []
                  && (!sdkEventuallyLoads || chat(Recipes.BuildPrompt(Detected(reply).value)).ChatHung?))
    ensures Detected(reply).Some? ==> end.view.ingredients == Detected(reply).value
    ensures Detected(reply) == Some([]) ==> end == Completed(StartedView)
    ensures end.view.recipes != [] ==> end.Completed? && end.view.ingredients != []
    ensures end.Completed? && end.view.ingredients != [] ==>
              && end.view.loadingMessage == FetchingMessage
              && Recipes.GetRecipeFromIngredients(true, end.view.ingredients, chat)
                 == Recipes.Resolved(end.view.recipes)
  {
    if reply.NoAnswer? then Stuck(StartedView)
    else
      match Detected(reply)
      case None => Threw(StartedView)
      case Some(names) =>
        var detected := StartedView.(ingredients := names);
        if |names| == 0 then Completed(detected)
        else
          var fetching := detected.(loadingMessage := FetchingMessage);
          if !sdkEventuallyLoads then Stuck(fetching)
          else
            match Recipes.GetRecipeFromIngredients(true, names, chat)
            case Failed(_) => Threw(fetching)
            case NeverAnswered => Stuck(fetching)
            case Resolved(dishes) => Completed(fetching.(recipes := dishes))
  }

  /** The handler. `segment` answers the upload of an image of the given
      size; `sdkEventuallyLoads` says whether the polling for `window.puter`
      ever succeeds; `chat` answers a prompt. The `finally` clause clears the
      loading flag and message whenever the `try` block ends. */
  function HandleImageUpload(prior: View, file: Option<Picture>,
                             segment: Resize.Dims -> HttpReply,
                             sdkEventuallyLoads: bool,
                             chat: string -> Recipes.ChatOutcome): (run: Run)
    ensures file.None? ==> run == Run(prior, Returned)
    ensures file.Some? ==> (run.settled == Rejected <==> file.value.Undecodable?)
    ensures file.Some? ==> Ingredients.NoDuplicates(run.view.ingredients)
    ensures file.Some? && run.view.recipes != [] ==> run.view.ingredients != []
    ensures file.Some? && run.view.error.Some? ==>
              run.view.error == Some(GenericError) && run.view.recipes == []
    ensures file.Some? && run.settled == Returned ==> !run.view.loading && run.view.loadingMessage == ""
    ensures run.settled == Rejected ==> run.view == StartedView
    ensures run.settled == Pending ==>
              || run.view == StartedView
              || (&& run.view.loading && run.view.ingredients != []
                  && run.view.error.None? && run.view.recipes == []
                  && run.view.loadingMessage == FetchingMessage
                  && (!sdkEventuallyLoads || chat(Recipes.BuildPrompt(run.view.ingredients)).ChatHung?))
    ensures file.Some? && file.value.Decoded? ==>
              var size := UploadSize(file.value.width, file.value.height);
              (run == Run(StartedView, Pending) <==> !Drawable(size) || segment(size).NoAnswer?)
  {
    match file
    case None => Run(prior, Returned)
    case Some(picture) =>
      match picture
      case Undecodable => Run(StartedView, Rejected)
      case Decoded(width, height) =>
        var size := UploadSize(width, height);
        if !Drawable(size) then Run(StartedView, Pending)
        else
          match TryBlock(segment(size), sdkEventuallyLoads, chat)
          case Completed(v) => Run(v.(loading := false, loadingMessage := ""), Returned)
          case Threw(v) => Run(v.(error := Some(GenericError), loading := false, loadingMessage := ""), Returned)
          case Stuck(v) => Run(v, Pending)
  }

  /** Which pictures give a non-empty canvas: both sides at least one pixel,
      and the minor side, scaled down with the major one to 512, still at
      least one pixel. */
  lemma DrawableIff(width: nat, height: nat)
    ensures Drawable(UploadSize(width, height)) <==>
              && 1 <= width && 1 <= height
              && (width > height && width > 512 ==> 512 * height >= width)
              && (height >= width && height > 512 ==> 512 * width >= height)
  {
    var size := UploadSize(width, height);
    if width > height && width > 512 {
      assert size == Resize.Dims(MaxSide, (height as real) * MaxSide / (width as real));
      ScaledSideAtLeastOne(height, width);
    } else if height >= width && height > 512 {
      assert size == Resize.Dims((width as real) * MaxSide / (height as real), MaxSide);
      ScaledSideAtLeastOne(width, height);
    } else {
      assert size == Resize.Dims(width as real, height as real);
    }
  }

  /** The minor side scaled by `512 / major` reaches one pixel exactly when
      `512 * minor` reaches `major`. */
  lemma ScaledSideAtLeastOne(minor: nat, major: nat)
    requires 512 < major
    ensures 1.0 <= (minor as real) * MaxSide / (major as real) <==> 512 * minor >= major
  {
    var m, n := minor as real, major as real;
    assert m * MaxSide == (512 * minor) as real;
    assert n / n == 1.0;
    if 512 * minor >= major {
      Resize.DivMonotone(n, m * MaxSide, n);
    } else {
      Resize.DivStrictlyMonotone(m * MaxSide, n, n);
    }
  }

  /** A picture of 1000 by 1 pixels scales to 512 by 0.512: the canvas is
      empty and the handler never settles, still showing the detecting
      message. */
  lemma ThinPictureNeverSettles(prior: View, segment: Resize.Dims -> HttpReply,
                                sdkEventuallyLoads: bool, chat: string -> Recipes.ChatOutcome)
    ensures UploadSize(1000, 1) == Resize.Dims(512.0, 0.512)
    ensures HandleImageUpload(prior, Some(Decoded(1000, 1)), segment, sdkEventuallyLoads, chat)
         == Run(StartedView, Pending)
  {
  }

  /** With a file chosen, nothing of the earlier view survives. */
  lemma PriorViewForgotten(prior: View, other: View, picture: Picture,
                           segment: Resize.Dims -> HttpReply, sdkEventuallyLoads: bool,
                           chat: string -> Recipes.ChatOutcome)
    ensures HandleImageUpload(prior, Some(picture), segment, sdkEventuallyLoads, chat)
         == HandleImageUpload(other, Some(picture), segment, sdkEventuallyLoads, chat)
  {
  }

  /** The view after the handler returned with an error. */
  const FailedView: View := View([], [], false, "", Some(GenericError))

  /** A failed request, a non-ok status or a body that is not JSON shows the
      generic error with both lists empty. */
  lemma HttpFailureShowsGenericError(prior: View, width: nat, height: nat,
                                     segment: Resize.Dims -> HttpReply, sdkEventuallyLoads: bool,
                                     chat: string -> Recipes.ChatOutcome)
    requires Drawable(UploadSize(width, height))
    requires var reply := segment(UploadSize(width, height));
             reply.NetworkFailure? || (reply.Reply? && (!reply.ok || reply.body.None?))
    ensures HandleImageUpload(prior, Some(Decoded(width, height)), segment, sdkEventuallyLoads, chat)
         == Run(FailedView, Returned)
  {
  }

  /** A region without candidates throws before any ingredient is shown. */
  lemma EmptyCandidateListShowsGenericError(prior: View, width: nat, height: nat,
                                            segment: Resize.Dims -> HttpReply, sdkEventuallyLoads: bool,
                                            chat: string -> Recipes.ChatOutcome, i: nat)
    requires Drawable(UploadSize(width, height))
    requires var reply := segment(UploadSize(width, height));
             && reply.Reply? && reply.ok && reply.body.Some?
             && reply.body.value.segmentationResults.Some?
             && i < |reply.body.value.segmentationResults.value|
             && reply.body.value.segmentationResults.value[i].recognitionResults == []
    ensures HandleImageUpload(prior, Some(Decoded(width, height)), segment, sdkEventuallyLoads, chat)
         == Run(FailedView, Returned)
  {
  }

  /** No ingredient found (including a reply without `segmentation_results`):
      no error, no recipes, and the chat SDK is never consulted. */
  lemma NothingDetectedSkipsRecipes(prior: View, width: nat, height: nat,
                                    segment: Resize.Dims -> HttpReply,
                                    sdkEventuallyLoads: bool, otherSdk: bool,
                                    chat: string -> Recipes.ChatOutcome,
                                    otherChat: string -> Recipes.ChatOutcome)
    requires Drawable(UploadSize(width, height))
    requires Detected(segment(UploadSize(width, height))) == Some([])
    ensures HandleImageUpload(prior, Some(Decoded(width, height)), segment, sdkEventuallyLoads, chat)
         == Run(View([], [], false, "", None), Returned)
    ensures HandleImageUpload(prior, Some(Decoded(width, height)), segment, sdkEventuallyLoads, chat)
         == HandleImageUpload(prior, Some(Decoded(width, height)), segment, otherSdk, otherChat)
  {
  }

  /** A reply without `segmentation_results` counts as nothing detected. */
  lemma MissingResultsDetectNothing(reply: HttpReply)
    requires reply.Reply? && reply.ok && reply.body.Some?
    requires reply.body.value.segmentationResults.None?
    ensures Detected(reply) == Some([])
  {
  }

  /** The recipe step failing after detection keeps the detected list,
      leaves recipes empty and shows the error. */
  lemma RecipeFailureKeepsIngredients(prior: View, width: nat, height: nat,
                                      segment: Resize.Dims -> HttpReply,
                                      chat: string -> Recipes.ChatOutcome, names: seq<string>)
    requires Drawable(UploadSize(width, height))
    requires Detected(segment(UploadSize(width, height))) == Some(names)
    requires names != []
    requires chat(Recipes.BuildPrompt(names)).ChatThrew?
    ensures HandleImageUpload(prior, Some(Decoded(width, height)), segment, true, chat)
         == Run(View(names, [], false, "", Some(GenericError)), Returned)
  {
  }

  /** The full path: the detected names are shown, and the dishes are the
      chat reply's lines. */
  lemma SuccessShowsIngredientsAndDishes(prior: View, width: nat, height: nat,
                                         segment: Resize.Dims -> HttpReply,
                                         chat: string -> Recipes.ChatOutcome, names: seq<string>)
    requires Drawable(UploadSize(width, height))
    requires Detected(segment(UploadSize(width, height))) == Some(names)
    requires names != []
    requires chat(Recipes.BuildPrompt(names)).ChatReturned?
    ensures var run := HandleImageUpload(prior, Some(Decoded(width, height)), segment, true, chat);
            && run.settled == Returned
            && run.view.ingredients == names
            && run.view.error.None?
            && !run.view.loading
            && Recipes.IsLineSplit(Recipes.ReplyContent(chat(Recipes.BuildPrompt(names)).message),
                                   run.view.recipes)
  {
  }

  /** The SDK never appearing leaves the handler waiting forever, with the
      detected list shown and the loading message for recipes. */
  lemma SdkNeverLoadsLeavesHandlerPending(prior: View, width: nat, height: nat,
                                          segment: Resize.Dims -> HttpReply,
                                          chat: string -> Recipes.ChatOutcome, names: seq<string>)
    requires Drawable(UploadSize(width, height))
    requires Detected(segment(UploadSize(width, height))) == Some(names)
    requires names != []
    ensures HandleImageUpload(prior, Some(Decoded(width, height)), segment, false, chat)
         == Run(View(names, [], true, FetchingMessage, None), Pending)
  {
  }

  /** A segmentation request that never answers (the fetch or its `json()`
      read never settles) leaves the handler waiting forever with the
      detecting message. */
  lemma UnansweredRequestLeavesDetecting(prior: View, width: nat, height: nat,
                                         segment: Resize.Dims -> HttpReply, sdkEventuallyLoads: bool,
                                         chat: string -> Recipes.ChatOutcome)
    requires segment(UploadSize(width, height)) == NoAnswer
    ensures HandleImageUpload(prior, Some(Decoded(width, height)), segment, sdkEventuallyLoads, chat)
         == Run(StartedView, Pending)
  {
  }

  /** A chat call that never answers, with the SDK loaded, leaves the handler
      waiting forever with the detected list and the recipe message. */
  lemma UnansweredChatLeavesFetching(prior: View, width: nat, height: nat,
                                     segment: Resize.Dims -> HttpReply,
                                     chat: string -> Recipes.ChatOutcome, names: seq<string>)
    requires Drawable(UploadSize(width, height))
    requires Detected(segment(UploadSize(width, height))) == Some(names)
    requires names != []
    requires chat(Recipes.BuildPrompt(names)) == Recipes.ChatHung
    ensures HandleImageUpload(prior, Some(Decoded(width, height)), segment, true, chat)
         == Run(View(names, [], true, FetchingMessage, None), Pending)
  {
  }

  /** A file the browser cannot decode makes `resizeAndCompressImage` reject
      outside the `try`: the error is never set and loading is never
      cleared. */
  lemma UndecodablePictureLeavesLoading(prior: View, segment: Resize.Dims -> HttpReply,
                                        sdkEventuallyLoads: bool, chat: string -> Recipes.ChatOutcome)
    ensures HandleImageUpload(prior, Some(Undecodable), segment, sdkEventuallyLoads, chat)
         == Run(StartedView, Rejected)
  {
  }
}
